=== FILE: README.md ===
# nix-based-sandbox: stdout/stderr multiplexing, file-name rule, timeout mapping

This project models the core of the `nix-based-sandbox` service, a small
HTTP handler. The handler writes caller-supplied files into a temporary
directory and runs a shell command under `bwrap`. It then returns the
child's exit status and its output. The model covers four parts:

- **The multiplexed output format** (`read_into_output`). Stdout and stderr are
  merged into one byte buffer. The byte `0x7F` is reserved. `0x7F 'O'` and
  `0x7F 'E'` are switch markers, written only when the source of the next bytes
  differs from the active one. The active source starts as stdout. A literal
  `0x7F` in the data is written twice. Module `Wire` defines the format as a
  token sequence and its serialisation. It also defines the decoder that a
  reader of the buffer would use (`Tokenize`, `Decode`). Module `Multiplexer`
  models the `append` closure as a pure function on a state record (`Mux`).
  It also has two imperative methods that follow the source's byte loop.
- **The drain loop** (module `ReadLoop`). `tokio::select!` is replaced by a
  sequence of read completions, in the order the loop observes them. The loop
  stops when both streams are closed or when the buffer is longer than
  1,000,000 bytes at the top of an iteration. `DrainFrom` defines the loop as a
  function. `DrainLoop` is the same loop written imperatively.
- **The file-name rule** (module `Filenames`). A name is accepted if it is
  non-empty, does not start with `.`, and contains only ASCII letters and `.`.
- **The request handler** (module `Sandbox`). It models the file loop, the
  spawn, the race against the 10-second deadline, and the mapping of the
  timed outcome to the response status. Everything the operating system
  decides is an input field of `Env`. For the stdin feed and the wait,
  `Env` says whether each is still running, has failed or has finished
  when the deadline fires. For the reads, it says how many completions
  come before the deadline. The handler's side effects (files
  written, child spawned) are returned as a trace.

Verify all files together:
`dafny verify --resource-limit 2000000 --verification-time-limit 0 --warn-contradictory-assumptions *.dfy`.

In a few places the code does something other than what a caller might
expect. The model follows the code:

- A caller might expect the status to be absent only when the deadline
  elapsed (the code's comment at src/main.rs:142 marks that case). The code
  returns `status.code()`, which is also absent for a child killed by a
  signal. See `Sandbox.StatusOf`.
- A caller might expect a bad name to abort the request before any file is
  written. The code writes, in map iteration order, every accepted name that
  comes before the bad one. Then it returns `InvalidInput`, and the temporary
  directory is dropped. No child is spawned. See `Sandbox.WriteFiles` and
  `Sandbox.RejectedName`.
- A caller might expect the output to stop within one read of each stream
  past the 1,000,000-byte ceiling. The code makes exactly one append per
  iteration. One append adds at most a 2-byte marker plus a 4096-byte chunk
  whose bytes may all be doubled. So the bound is 1,000,000 + 2 + 2·4096
  (`ReadLoop.Bound`).
- The rejection message says "ASCII alphanumeric characters and dots", but the
  check uses `is_ascii_alphabetic`, so digits are rejected. The model follows
  the check.

## Model

| member | source | states |
|---|---|---|
| Wire.Tag | src/main.rs:67-71 | the tag of stdout is 'O', the tag of stderr is 'E', and neither is the escape byte 0x7F |
| Wire.SourceOfTag | src/main.rs:48-51 | only 'O' and 'E' are tags, and reading a tag gives back the source that writes it |
| Wire.Lex | src/main.rs:48-57 | each unit of the format is one byte or two bytes; it is two bytes exactly when it contains 0x7F, and then 0x7F comes first |
| Wire.Serialize | src/main.rs:48-57 | a token sequence takes at least one byte and at most two bytes per token |
| Wire.TokenizeSerialize | src/main.rs:48-57 | the decoding rule (0x7F 0x7F is a literal byte, 0x7F 'O'/'E' is a switch) reads any token sequence back from its bytes |
| Wire.SerializeTokenize | src/main.rs:48-57 | a buffer that decodes without error is the serialisation of what it decodes to |
| Wire.TokenizeIff | src/main.rs:48-57 | decoding accepts a buffer exactly when the buffer serialises some token sequence, and then returns that sequence |
| Wire.DanglingEscapeRejected | src/main.rs:48-57 | every lead byte the writer emits is followed by a second byte, so a buffer ending in a lone 0x7F after well-formed bytes is rejected as dangling rather than misread |
| Wire.AfterConcat | src/main.rs:39-52 | the source active after two concatenated token runs is the one reached by running the second from where the first left off |
| Wire.InterpretConcat | src/main.rs:39-52 | attributing bytes to sources over two concatenated token runs is the first run's attribution followed by the second run's, taken from the source active after the first |
| Multiplexer.Append | src/main.rs:42-59 | the old buffer is a prefix of the new one; an empty read sets only its own stream's flag and changes neither the buffer nor the tag; a non-empty read makes its source the active tag and leaves both flags alone |
| Multiplexer.AppendShape | src/main.rs:47-58 | a non-empty read adds its length, plus one byte per 0x7F in it, plus 2 if the source switched; the new bytes start with the marker 0x7F,tag exactly when the source differs from the active one |
| Multiplexer.EscapeInto | src/main.rs:53-58 | the byte loop (push each byte, and push 0x7F again after a 0x7F) appends exactly the escaped chunk |
| Multiplexer.AppendChunk | src/main.rs:42-59 | the closure as written (flag on an empty read, marker pushes, byte loop) computes the same state as `Append` |
| Multiplexer.EscapeSnoc | src/main.rs:53-58 | bytes are escaped in read order: escaping one more byte adds it, doubled if it is 0x7F |
| Multiplexer.EscapeLength | src/main.rs:47-58 | an escaped chunk is longer than the chunk by its number of 0x7F bytes |
| Multiplexer.EscapePlain | src/main.rs:53-58 | a chunk without 0x7F is written unchanged |
| Multiplexer.SameSourceNoMarker | src/main.rs:47-52 | two non-empty reads from the same source in a row write no marker between them |
| Multiplexer.Feed | src/main.rs:62-75 | over any run of reads the buffer only grows and a set `disabled` flag is never cleared |
| Multiplexer.FeedTokens | src/main.rs:39-59 | a run of appends writes, after the old buffer, exactly the serialisation of the run's tokens: each non-empty read's marker (if its source differs from the active one) and its data |
| Multiplexer.FeedCurrent | src/main.rs:39-52 | after a run of appends, the active tag is the source those tokens leave active |
| Multiplexer.RoundTrip | src/main.rs:39-59 | decoding the buffer from a run of reads gives every byte read, in read order, each tagged with its stream; so the buffer never holds a dangling or unknown escape |
| Multiplexer.StreamsRoundTrip | src/main.rs:39-59 | decoding the buffer and keeping one stream's bytes gives the concatenation of that stream's reads, in order |
| Multiplexer.MarkersAreChanges | src/main.rs:47-52 | the buffer holds exactly one switch marker per change of source in the bytes read, counted from the initial stdout |
| Multiplexer.PlainStdout | src/main.rs:39-58 | because the initial tag is 'O', reads from stdout only and without 0x7F are written as their plain concatenation, with no marker |
| Multiplexer.EchoAbc | src/main.rs:205-208 | `echo abc`: one stdout read of "abc\n", then end of input on both pipes, gives buffer "abc\n" with both streams closed |
| Multiplexer.InterleavedXYZ | src/main.rs:39-58 | X on stdout, Y on stderr, Z on stdout gives X,0x7F,'E',Y,0x7F,'O',Z: one marker at each change of stream |
| Multiplexer.InterleavedXYZStreams | src/main.rs:39-58 | that buffer decodes to stdout "XZ" and stderr "Y" |
| ReadLoop.AppendWithinBound | src/main.rs:40-58 | one append of a read of at most 4096 bytes, made while the buffer is within 1,000,000 bytes, leaves at most 1,000,000 + 2 + 2·4096 bytes |
| ReadLoop.DrainFrom | src/main.rs:62-75 | the loop stops for one of four reasons: both streams closed while within the ceiling; over the ceiling; a failed read from a stream that is still enabled, within the ceiling; or no further completion while a stream is still open. Which reads it takes is stated by `ReadLoop.TakesAll` |
| ReadLoop.DrainFromFeeds | src/main.rs:62-75 | the loop's final state is the appends of exactly the reads it took, in order |
| ReadLoop.DrainFromOpen | src/main.rs:66-71 | the `select!` guards: no read is taken from a stream that is already disabled |
| ReadLoop.DrainFromNoReadAfterEnd | src/main.rs:43-46 | after a stream's zero-length read, no further read from that stream is taken (its flag is never cleared) |
| ReadLoop.DrainFromBound | src/main.rs:62-75 | with reads of at most 4096 bytes, the buffer never goes beyond 1,000,000 + 2 + 2·4096 bytes |
| ReadLoop.TakesAll | src/main.rs:62-75 | no read is lost: when no completion comes from a disabled stream, the loop's chunks are exactly the delivered reads among the completions it consumed, in order |
| ReadLoop.DrainTakesAll | src/main.rs:39-75 | from the initial state, the loop's chunks are the delivered reads among the completions it consumed, and its buffer decodes to exactly their bytes, in order, each tagged by stream |
| ReadLoop.Drain | src/main.rs:39-75 | the loop starts from an empty buffer with stdout active and both streams enabled; its final state is what the appends of the reads it took make of that start |
| ReadLoop.DrainLoop | src/main.rs:60-75 | the imperative loop (length check, guarded select, else-break) computes the same result as `Drain` and stays within the overshoot bound |
| ReadLoop.DrainRoundTrip | src/main.rs:34-77 | however the loop stops, its buffer decodes to the bytes of the reads it took, in order and tagged by stream |
| ReadLoop.DrainBound | src/main.rs:40-75 | the final buffer is at most 1,000,000 + 2 + 2·4096 bytes |
| ReadLoop.DrainFromPrefix | src/main.rs:62-75 | cutting the completions short leaves a prefix of the buffer that the longer run writes |
| ReadLoop.DrainPrefix | src/main.rs:128-142 | the buffer seen when the deadline fires is a prefix of the buffer an uninterrupted run writes: output is never taken back |
| Filenames.CheckName | src/main.rs:83-85 | the check (non-empty, no leading dot, then a short-circuit pass over the characters) accepts exactly the valid names |
| Filenames.Rejected | src/main.rs:83-92 | names with '/', a digit, or a leading '.' are rejected |
| Filenames.AcceptedStaysInside | src/main.rs:83-87 | an accepted name has no path separator and is neither "." nor ".." |
| Sandbox.WriteFiles | src/main.rs:82-94 | the file loop writes a prefix of the files, each with an accepted name; it fails exactly when some name is rejected or some write fails, and stops at the first such file |
| Sandbox.TryJoin | src/main.rs:130-137 | `try_join!` fails when any of the three futures has failed, and finishes, with all three results, only when all three have finished |
| Sandbox.Race | src/main.rs:129-140 | the timed future fails when a read, the stdin feed or the wait fails before the deadline; it yields the child's `status.code()` when the drain has returned and the feed and the wait have finished; otherwise the deadline elapses |
| Sandbox.Captured | src/main.rs:128-146 | the buffer returned is what the drain wrote before the race ended: a prefix of what an uninterrupted drain writes, and it decodes to the reads taken before the deadline |
| Sandbox.StatusOf | src/main.rs:141-144 | a deadline is not an error and gives no status; a failed inner future fails the request; otherwise the status is `status.code()`, which may itself be absent |
| Sandbox.Handle | src/main.rs:80-149 | the child is spawned only after every name is accepted and written; only accepted names are written; a request with a bad name fails and spawns nothing |
| Sandbox.StopsAtRejectedName | src/main.rs:82-94 | the file loop, given a rejected name at position j and no failing write before it, ends with `InvalidInput` |
| Sandbox.RejectedName | src/main.rs:82-94 | a rejected name with no failing write before it gives `InvalidInput`, and nothing is spawned |
| Sandbox.DeadlineKeepsOutput | src/main.rs:128-146 | when the deadline fires after k completions with no future failed and one still running, the status is absent and the response carries the buffer written so far; that buffer is a prefix of the full run's buffer and decodes to the reads taken |
| Sandbox.StarvedRunTimesOut | src/main.rs:129-142 | a drain that is still waiting, with neither the stdin feed nor the wait failed, ends by the deadline: no status, output kept |
| Sandbox.CompletedRun | src/main.rs:129-147 | if all three futures finish before the deadline, the status is the exit code and the output is the whole drained buffer |
| Sandbox.InnerFailureFails | src/main.rs:130-143 | a failed read, stdin write or wait before the deadline fails the whole request, whatever the other futures and the deadline are doing |
| Sandbox.LaunchedEffects | src/main.rs:82-124 | a request whose names are all accepted and whose writes and spawn succeed writes every file, in order, then spawns the child |
| Sandbox.ExampleReadFailure | src/main.rs:130-143 | a read that fails before a later deadline fails the request even though the child exits with 0 |
| Sandbox.ExampleStdinFailure | src/main.rs:131-143 | a failed stdin write while the drain is still waiting fails the request instead of timing out |
| Sandbox.StdoutOnlyDrain | src/main.rs:60-75 | a child that writes 0x7F-free data to stdout and exits leaves exactly that data; every completion is a read the loop takes, and the loop ends by the `else` arm |
| Sandbox.ExampleStatus | src/main.rs:200-203 | `false`: status 1, empty output |
| Sandbox.ExampleOutput | src/main.rs:205-208 | `echo abc`: status 0, output "abc\n" with no marker, stdout being the initially active stream |
| Sandbox.ExampleStdin | src/main.rs:210-213 | `cat` with stdin "abc": status 0, output "abc" |
| Sandbox.ExampleFiles | src/main.rs:215-218 | `cat *` over files a="b", c="d": both files written, child spawned, status 0, output "bd" |

## Left out

- Rocket routing and JSON (de)serialisation of `Input`, `File` and `Output` (src/main.rs:13-32, 79, 151-154): transport plumbing. The request is a `Request` value and the response a `Response` value.
- `String::from_utf8_lossy` on the output (src/main.rs:146): a library UTF-8 decoder. The response output stays raw bytes.
- The temporary directory's creation and removal, and `fs::write` (src/main.rs:81, 87): filesystem I/O. Only the success or failure of each call is modelled (`Env.tempdirOk`, `Env.failingWrites`). Removal happens when `tempdir` is dropped, which is outside the model.
- The `bwrap` argument list and the unused `--private=` string (src/main.rs:95-124): a fixed literal for an external executable. Only whether the spawn succeeds is modelled (`Env.spawnOk`). `kill_on_drop` is an operating-system guarantee.
- Concurrency (`tokio::select!`, `try_join!`, `timeout`, stdin writing, `child.wait()`; src/main.rs:66-74, 129-140): these become inputs. The read completions are a sequence in observed order. The stdin feed and the wait are each running, failed or finished when the deadline fires. The deadline is placed after k read completions, or after all of them. Which branch `select!` picks when both streams are ready is the order of that sequence.
- Sandbox.Race: the order in which the futures fail or finish before the deadline is not modelled, only whether they do. It does not change the result: any failure fails the request and drops the output. Real time (10 seconds) is not modelled.
- ReadLoop.DrainFrom: a completion from a disabled stream is passed over with no effect. The real `select!` never polls that branch, so such a completion cannot happen; `ReadLoop.TakesAll` assumes none occurs (`NoEventAfterEnd`).
- Sandbox.WriteFiles: the order of `HashMap` iteration is whatever order `Request.files` gives. The model does not choose it.
- Request.stdin and Request.code are carried but not used: their effect on the child is what `Env` describes.
- The integration tests (src/main.rs:156-230) need a real `bwrap`/Nix environment. `test_status`, `test_output`, `test_stdin` and `test_files` appear only as the example lemmas above, with the child's behaviour given as an `Env`. `test_php` would add nothing beyond a different `Env`.

=== FILE: drain.dfy ===
/** The drain loop of `read_into_output` (src/main.rs:60-75).

    `tokio::select!` is abstracted as the sequence of read completions it
    observes, in order. A branch whose stream is disabled is never polled, so
    a completion from a disabled stream is never taken: the model passes over
    it without effect. A read that fails ends the loop with the error (the
    `?` after `read`). Running out of completions while a stream is still
    open means the real loop would go on waiting. Module `Sandbox` ends such
    a run by the deadline, or earlier when feeding stdin or waiting for the
    child fails and `try_join!` drops the waiting loop. */
module ReadLoop {
  import opened Wire
  import opened Multiplexer

  /** Size of each read buffer (src/main.rs:40-41). */
  const ChunkSize: nat := 4096
  /** Output length above which the loop stops reading (src/main.rs:63). */
  const Ceiling: nat := 1_000_000
  /** The longest buffer the loop can leave: one last append of a full chunk
      of 0x7F bytes after a marker, taken while the length was still at the
      ceiling. */
  const Bound: nat := Ceiling + 2 + 2 * ChunkSize

  /** A read completion as `select!` reports it. */
  datatype Event = Delivered(c: Chunk) | ReadFailed(src: Source)

  function EventSource(e: Event): Source
  {
    match e
    case Delivered(c) => c.src
    case ReadFailed(s) => s
  }

  /** Why the loop stopped. */
  datatype End =
    | BothClosed   // the `else` arm: both streams disabled
    | OverCeiling  // the length check at the top of an iteration
    | ReadError    // a read returned an I/O error
    | Starved      // no further completion: still waiting when the run ends

  /** Final state, number of completions consumed, and the reads taken. */
  datatype Drained = Drained(mux: Mux, end: End, taken: nat, chunks: seq<Chunk>)

  /** Every read fits its 4096-byte buffer. */
  predicate ChunksFit(evs: seq<Event>)
  {
    forall e | e in evs && e.Delivered? :: |e.c.data| <= ChunkSize
  }

  /** One append made while the length was within the ceiling keeps it
      within `Bound`. */
  lemma AppendWithinBound(m: Mux, c: Chunk)
    requires |m.output| <= Ceiling
    ensures |c.data| <= ChunkSize ==> |Append(m, c.src, c.data).output| <= Bound
  {
  }

  /** The loop from state `m`, with completions `evs[i..]` still to come. */
  function DrainFrom(m: Mux, evs: seq<Event>, i: nat): (d: Drained)
    requires i <= |evs|
    ensures i <= d.taken <= |evs|
    // each way of stopping, with what holds when it happens
    ensures d.end == BothClosed ==> d.mux.outClosed && d.mux.errClosed && |d.mux.output| <= Ceiling
    ensures d.end == OverCeiling ==> |d.mux.output| > Ceiling
    ensures d.end == ReadError ==>
      && i < d.taken && evs[d.taken - 1].ReadFailed? && |d.mux.output| <= Ceiling
      && !Closed(d.mux, EventSource(evs[d.taken - 1]))
    ensures d.end == Starved ==>
      d.taken == |evs| && !(d.mux.outClosed && d.mux.errClosed) && |d.mux.output| <= Ceiling
    decreases |evs| - i
  {
    if |m.output| > Ceiling then Drained(m, OverCeiling, i, [])
    else if m.outClosed && m.errClosed then Drained(m, BothClosed, i, [])
    else if i == |evs| then Drained(m, Starved, i, [])
    else if Closed(m, EventSource(evs[i])) then DrainFrom(m, evs, i + 1)
    else match evs[i]
      case ReadFailed(_) => Drained(m, ReadError, i + 1, [])
      case Delivered(c) =>
        var m' := Append(m, c.src, c.data);
        var d := DrainFrom(m', evs, i + 1);
        d.(chunks := [c] + d.chunks)
  }

  /** The final state is the appends of the reads taken, in order. */
  lemma {:induction false} DrainFromFeeds(m: Mux, evs: seq<Event>, i: nat)
    requires i <= |evs|
    ensures DrainFrom(m, evs, i).mux == Feed(m, DrainFrom(m, evs, i).chunks)
    decreases |evs| - i
  {
    if |m.output| > Ceiling || (m.outClosed && m.errClosed) || i == |evs| {
    } else if Closed(m, EventSource(evs[i])) {
      DrainFromFeeds(m, evs, i + 1);
    } else if evs[i].Delivered? {
      var c := evs[i].c;
      var m' := Append(m, c.src, c.data);
      var rest := DrainFrom(m', evs, i + 1).chunks;
      assert DrainFrom(m, evs, i).chunks == [c] + rest;
      assert ([c] + rest)[1..] == rest;
      DrainFromFeeds(m', evs, i + 1);
    }
  }

  /** No read is taken from a stream that was already closed: the
      `if !stdout_disabled` / `if !stderr_disabled` guards. */
  lemma {:induction false} DrainFromOpen(m: Mux, evs: seq<Event>, i: nat)
    requires i <= |evs|
    ensures forall c | c in DrainFrom(m, evs, i).chunks :: !Closed(m, c.src)
    decreases |evs| - i
  {
    if |m.output| > Ceiling || (m.outClosed && m.errClosed) || i == |evs| {
    } else if Closed(m, EventSource(evs[i])) {
      DrainFromOpen(m, evs, i + 1);
    } else if evs[i].Delivered? {
      var c := evs[i].c;
      var m' := Append(m, c.src, c.data);
      DrainFromOpen(m', evs, i + 1);
      assert DrainFrom(m, evs, i).chunks == [c] + DrainFrom(m', evs, i + 1).chunks;
    }
  }

  /** No chunk follows an end-of-input chunk of the same stream. */
  predicate NoReadAfterEnd(cs: seq<Chunk>)
  {
    forall j, k | 0 <= j < k < |cs| :: cs[j].data == [] ==> cs[k].src != cs[j].src
  }

  /** Once a stream has returned a zero-length read, no further read is taken
      from it: the flag set by the closure is never cleared. */
  lemma {:induction false} DrainFromNoReadAfterEnd(m: Mux, evs: seq<Event>, i: nat)
    requires i <= |evs|
    ensures NoReadAfterEnd(DrainFrom(m, evs, i).chunks)
    decreases |evs| - i
  {
    if |m.output| > Ceiling || (m.outClosed && m.errClosed) || i == |evs| {
    } else if Closed(m, EventSource(evs[i])) {
      assert DrainFrom(m, evs, i) == DrainFrom(m, evs, i + 1);
      DrainFromNoReadAfterEnd(m, evs, i + 1);
    } else if evs[i].Delivered? {
      var c := evs[i].c;
      var m' := Append(m, c.src, c.data);
      var rest := DrainFrom(m', evs, i + 1).chunks;
      var all := DrainFrom(m, evs, i).chunks;
      assert all == [c] + rest;
      DrainFromNoReadAfterEnd(m', evs, i + 1);
      DrainFromOpen(m', evs, i + 1);
      forall j, k | 0 <= j < k < |all| && all[j].data == []
        ensures all[k].src != all[j].src
      {
        assert all[k] == rest[k - 1];
        if j > 0 {
          assert all[j] == rest[j - 1];
        } else {
          assert all[j] == c && Closed(m', c.src);
          assert all[k] in rest;
        }
      }
    }
  }

  /** The length check at the top of every iteration, with reads of at most
      4096 bytes, keeps the buffer within `Bound`. */
  lemma {:induction false} DrainFromBound(m: Mux, evs: seq<Event>, i: nat)
    requires i <= |evs| && ChunksFit(evs) && |m.output| <= Bound
    ensures |DrainFrom(m, evs, i).mux.output| <= Bound
    decreases |evs| - i
  {
    if |m.output| > Ceiling || (m.outClosed && m.errClosed) || i == |evs| {
    } else if Closed(m, EventSource(evs[i])) {
      DrainFromBound(m, evs, i + 1);
    } else if evs[i].Delivered? {
      var c := evs[i].c;
      assert evs[i] in evs;
      AppendWithinBound(m, c);
      DrainFromBound(Append(m, c.src, c.data), evs, i + 1);
    }
  }

  /** The whole loop, from the initial state (src/main.rs:39, 60-61): an
      empty buffer, stdout active, both streams enabled. Its final state is
      what the appends of the reads it took make of that state. */
  function Drain(evs: seq<Event>): (d: Drained)
    ensures d.taken <= |evs|
    ensures d.mux == Feed(Start, d.chunks)
  {
    DrainFromFeeds(Start, evs, 0);
    DrainFrom(Start, evs, 0)
  }

  /** The loop's result once `done` have been taken and the state is `m`
      with completions `evs[i..]` still to come. */
  function Resume(done: seq<Chunk>, m: Mux, evs: seq<Event>, i: nat): Drained
    requires i <= |evs|
  {
    var rest := DrainFrom(m, evs, i);
    rest.(chunks := done + rest.chunks)
  }

  lemma ResumeStop(done: seq<Chunk>, m: Mux, evs: seq<Event>, i: nat)
    requires i <= |evs|
    requires |m.output| > Ceiling || (m.outClosed && m.errClosed) || i == |evs|
    ensures Resume(done, m, evs, i) == Drained(m, DrainFrom(m, evs, i).end, i, done)
  {
  }

  lemma ResumeTake(done: seq<Chunk>, m: Mux, evs: seq<Event>, i: nat)
    requires i < |evs| && |m.output| <= Ceiling && !(m.outClosed && m.errClosed)
    ensures Closed(m, EventSource(evs[i])) ==> Resume(done, m, evs, i) == Resume(done, m, evs, i + 1)
    ensures !Closed(m, EventSource(evs[i])) && evs[i].ReadFailed? ==>
      Resume(done, m, evs, i) == Drained(m, ReadError, i + 1, done)
    ensures !Closed(m, EventSource(evs[i])) && evs[i].Delivered? ==>
      var c := evs[i].c;
      Resume(done, m, evs, i) == Resume(done + [c], Append(m, c.src, c.data), evs, i + 1)
  {
  }

  /** The loop as the source writes it: length check, then the `select!`
      over the enabled streams, with the `append` closure inlined as
      `AppendChunk`. */
  method DrainLoop(evs: seq<Event>) returns (d: Drained)
    ensures d == Drain(evs)
    ensures ChunksFit(evs) ==> |d.mux.output| <= Bound
  {
    var m := Start;
    var i := 0;
    var chunks: seq<Chunk> := [];
    while true
      invariant i <= |evs|
      invariant Drain(evs) == Resume(chunks, m, evs, i)
      invariant ChunksFit(evs) ==> |m.output| <= Bound
      decreases |evs| - i
    {
      if |m.output| > Ceiling {
        ResumeStop(chunks, m, evs, i);
        return Drained(m, OverCeiling, i, chunks);
      }
      if m.outClosed && m.errClosed {
        ResumeStop(chunks, m, evs, i);
        return Drained(m, BothClosed, i, chunks);
      }
      if i == |evs| {
        ResumeStop(chunks, m, evs, i);
        return Drained(m, Starved, i, chunks);
      }
      ResumeTake(chunks, m, evs, i);
      var e := evs[i];
      i := i + 1;
      if Closed(m, EventSource(e)) {
        continue;
      }
      match e
      case ReadFailed(_) =>
        return Drained(m, ReadError, i, chunks);
      case Delivered(c) =>
        if ChunksFit(evs) {
          assert e in evs;
          AppendWithinBound(m, c);
        }
        m := AppendChunk(m, c.src, c.data);
        chunks := chunks + [c];
    }
  }

  /** Decoding the buffer the loop leaves recovers every read it took, in
      order, each attributed to its stream; whatever the way it stopped. */
  lemma DrainRoundTrip(evs: seq<Event>)
    ensures Decode(Drain(evs).mux.output) == Results.Ok(TaggedBytes(Drain(evs).chunks))
  {
    RoundTrip(Drain(evs).chunks);
  }

  /** The reads carried by a run of completions, in order: the chunk of
      each delivered read; a failed read carries none. */
  function DeliveredChunks(es: seq<Event>): seq<Chunk>
    decreases |es|
  {
    if es == [] then []
    else (if es[0].Delivered? then [es[0].c] else []) + DeliveredChunks(es[1..])
  }

  /** From position `i` on, no completion follows its own stream's
      zero-length read: what `select!` guarantees by not polling a disabled
      branch. */
  predicate NoEventAfterEnd(evs: seq<Event>, i: nat)
  {
    forall j, k | i <= j < k < |evs| ::
      evs[j].Delivered? && evs[j].c.data == [] ==> EventSource(evs[k]) != evs[j].c.src
  }

  /** No read is lost: when no completion comes from a stream that is
      already disabled, the loop takes exactly the delivered reads among the
      completions it consumes, in order. */
  lemma {:induction false} TakesAll(m: Mux, evs: seq<Event>, i: nat)
    requires i <= |evs|
    requires forall k | i <= k < |evs| :: !Closed(m, EventSource(evs[k]))
    requires NoEventAfterEnd(evs, i)
    ensures DrainFrom(m, evs, i).chunks == DeliveredChunks(evs[i..DrainFrom(m, evs, i).taken])
    decreases |evs| - i
  {
    var d := DrainFrom(m, evs, i);
    if |m.output| > Ceiling || (m.outClosed && m.errClosed) || i == |evs| {
      assert d.taken == i && evs[i..i] == [];
    } else {
      var e := evs[i];
      assert !Closed(m, EventSource(e));
      match e
      case ReadFailed(_) =>
        assert d.taken == i + 1 && d.chunks == [];
        assert DeliveredChunks(evs[i..i + 1]) == [] + DeliveredChunks(evs[i..i + 1][1..]);
      case Delivered(c) =>
        var m' := Append(m, c.src, c.data);
        forall k | i + 1 <= k < |evs|
          ensures !Closed(m', EventSource(evs[k]))
        {
          assert !Closed(m, EventSource(evs[k]));
          if c.data == [] {
            assert EventSource(evs[k]) != c.src;
            assert EventSource(evs[k]) == Other(c.src);
          }
        }
        var rest := DrainFrom(m', evs, i + 1);
        TakesAll(m', evs, i + 1);
        assert d == rest.(chunks := [c] + rest.chunks);
        var taken := evs[i..d.taken];
        assert taken[0] == e && taken[1..] == evs[i + 1..d.taken];
        assert DeliveredChunks(taken) == [c] + DeliveredChunks(taken[1..]);
    }
  }

  /** The whole loop loses no read: its chunks are the delivered reads among
      the completions it consumed, and its buffer decodes to exactly their
      bytes, in order, each attributed to its stream. */
  lemma DrainTakesAll(evs: seq<Event>)
    requires NoEventAfterEnd(evs, 0)
    ensures Drain(evs).chunks == DeliveredChunks(evs[..Drain(evs).taken])
    ensures Decode(Drain(evs).mux.output) == Results.Ok(TaggedBytes(DeliveredChunks(evs[..Drain(evs).taken])))
  {
    TakesAll(Start, evs, 0);
    assert evs[0..Drain(evs).taken] == evs[..Drain(evs).taken];
    DrainRoundTrip(evs);
  }

  /** The loop stops with at most `Bound` bytes: the length check runs once
      per iteration and each iteration appends at most one chunk. */
  lemma DrainBound(evs: seq<Event>)
    requires ChunksFit(evs)
    ensures |Drain(evs).mux.output| <= Bound
  {
    DrainFromBound(Start, evs, 0);
  }

  /** Cutting the completions short (the deadline firing after `k` of them)
      leaves a prefix of the buffer a longer run would have produced: output
      already written is never taken back. */
  lemma {:induction false} DrainFromPrefix(m: Mux, evs: seq<Event>, k: nat, i: nat)
    requires i <= k <= |evs|
    ensures DrainFrom(m, evs[..k], i).mux.output <= DrainFrom(m, evs, i).mux.output
    decreases k - i, 1
  {
    if |m.output| > Ceiling || (m.outClosed && m.errClosed) {
      assert DrainFrom(m, evs[..k], i).mux == m == DrainFrom(m, evs, i).mux;
    } else if i == k {
      assert DrainFrom(m, evs[..k], i).mux == m;
      DrainFromFeeds(m, evs, i);
    } else {
      DrainFromPrefixStep(m, evs, k, i);
    }
  }

  /** One event of a run that has not stopped before it. */
  lemma DrainFromNext(m: Mux, evs: seq<Event>, i: nat)
    requires i < |evs|
    requires |m.output| <= Ceiling && !(m.outClosed && m.errClosed)
    ensures Closed(m, EventSource(evs[i])) ==> DrainFrom(m, evs, i).mux == DrainFrom(m, evs, i + 1).mux
    ensures !Closed(m, EventSource(evs[i])) && evs[i].Delivered? ==>
      DrainFrom(m, evs, i).mux == DrainFrom(Append(m, evs[i].c.src, evs[i].c.data), evs, i + 1).mux
    ensures !Closed(m, EventSource(evs[i])) && evs[i].ReadFailed? ==> DrainFrom(m, evs, i).mux == m
  {
  }

  /** The step of the prefix lemma where both runs go on to event `i`. */
  lemma {:induction false} DrainFromPrefixStep(m: Mux, evs: seq<Event>, k: nat, i: nat)
    requires i < k <= |evs|
    requires |m.output| <= Ceiling && !(m.outClosed && m.errClosed)
    ensures DrainFrom(m, evs[..k], i).mux.output <= DrainFrom(m, evs, i).mux.output
    decreases k - i, 0
  {
    var short := evs[..k];
    var e := evs[i];
    assert short[i] == e;
    DrainFromNext(m, short, i);
    DrainFromNext(m, evs, i);
    var m' := if Closed(m, EventSource(e)) then m else if e.Delivered? then Append(m, e.c.src, e.c.data) else m;
    if Closed(m, EventSource(e)) || e.Delivered? {
      DrainFromPrefix(m', evs, k, i + 1);
      assert DrainFrom(m, short, i).mux == DrainFrom(m', short, i + 1).mux;
      assert DrainFrom(m, evs, i).mux == DrainFrom(m', evs, i + 1).mux;
    }
  }

  lemma DrainPrefix(evs: seq<Event>, k: nat)
    requires k <= |evs|
    ensures Drain(evs[..k]).mux.output <= Drain(evs).mux.output
  {
    DrainFromPrefix(Start, evs, k, 0);
  }
}

=== FILE: filenames.dfy ===
/** The file-name rule of the request handler (src/main.rs:83-85): a name is
    written into the workspace only if it is non-empty, does not start with
    `.`, and consists of ASCII letters and `.` only. */
module Filenames {

  predicate IsAsciiAlphabetic(c: char)
  {
    'a' <= c <= 'z' || 'A' <= c <= 'Z'
  }

  /** A character the rule admits. */
  predicate NameChar(c: char)
  {
    IsAsciiAlphabetic(c) || c == '.'
  }

  predicate ValidName(name: string)
  {
    && name != []
    && name[0] != '.'
    && forall i | 0 <= i < |name| :: NameChar(name[i])
  }

  /** The check as the source evaluates it: emptiness, the leading dot, then
      a short-circuiting pass over the characters. */
  method CheckName(name: string) returns (ok: bool)
    ensures ok <==> ValidName(name)
  {
    if |name| == 0 || name[0] == '.' {
      return false;
    }
    var i := 0;
    while i < |name|
      invariant 0 <= i <= |name|
      invariant forall j | 0 <= j < i :: NameChar(name[j])
    {
      if !NameChar(name[i]) {
        return false;
      }
      i := i + 1;
    }
    return true;
  }

  /** Names with a path separator, a digit or a leading dot are rejected. */
  lemma Rejected(name: string)
    ensures '/' in name ==> !ValidName(name)
    ensures (exists i | 0 <= i < |name| :: '0' <= name[i] <= '9') ==> !ValidName(name)
    ensures |name| > 0 && name[0] == '.' ==> !ValidName(name)
  {
  }

  /** An accepted name denotes a plain entry directly inside the workspace
      directory: it has no separator, is neither `.` nor `..`, and is not a
      hidden file. */
  lemma AcceptedStaysInside(name: string)
    requires ValidName(name)
    ensures '/' !in name && '\\' !in name
    ensures name != "." && name != ".."
    ensures forall i | 0 <= i < |name| :: name[i] != '\0'
  {
  }
}

=== FILE: multiplexer.dfy ===
/** The state machine behind the `append` closure of `read_into_output`
    (src/main.rs:39-59): it keeps the tag of the active source and the merged
    output buffer, writes a switch marker when the source of a chunk differs
    from the active one, and doubles every 0x7F in the chunk. A zero-length
    read instead marks its stream as closed.

    The lemmas at the end connect a whole run of appends to the reader of
    module `Wire`: decoding the buffer gives back every chunk, in read order,
    attributed to its stream. */
module Multiplexer {
  import opened Results
  import opened Wire

  /** One completed read: the stream it came from and the bytes it returned
      (empty at end of input). */
  datatype Chunk = Chunk(src: Source, data: seq<byte>)

  /** The state the closure and the drain loop share: the active tag
      (`current`), the merged buffer (`output`) and the two `disabled` flags. */
  datatype Mux = Mux(current: Source, output: seq<byte>, outClosed: bool, errClosed: bool)

  /** Nothing read yet; the active source is stdout (src/main.rs:39, 60-61). */
  const Start := Mux(Stdout, [], false, false)

  function Other(s: Source): Source
  {
    match s
    case Stdout => Stderr
    case Stderr => Stdout
  }

  function Closed(m: Mux, s: Source): bool
  {
    match s
    case Stdout => m.outClosed
    case Stderr => m.errClosed
  }

  function Close(m: Mux, s: Source): Mux
  {
    match s
    case Stdout => m.(outClosed := true)
    case Stderr => m.(errClosed := true)
  }

  /** Occurrences of `b` in `s`. */
  function Occurrences(s: seq<byte>, b: byte): nat
    decreases |s|
  {
    if s == [] then 0 else (if s[0] == b then 1 else 0) + Occurrences(s[1..], b)
  }

  /** The data tokens of a chunk. */
  function DataTokens(s: seq<byte>): (ts: seq<Token>)
    ensures |ts| == |s|
    ensures forall i :: 0 <= i < |s| ==> ts[i] == Data(s[i])
  {
    seq(|s|, i requires 0 <= i < |s| => Data(s[i]))
  }

  /** A chunk's bytes as they appear in the merged buffer. */
  function Escape(s: seq<byte>): seq<byte>
  {
    Serialize(DataTokens(s))
  }

  /** The marker written before a chunk from `t` while `cur` is active. */
  function Switching(cur: Source, t: Source): seq<Token>
  {
    if cur == t then [] else [Switch(t)]
  }

  /** The bytes of that marker. */
  function MarkerBytes(cur: Source, t: Source): seq<byte>
  {
    if cur == t then [] else [Esc, Tag(t)]
  }

  lemma SwitchingBytes(cur: Source, t: Source)
    ensures Serialize(Switching(cur, t)) == MarkerBytes(cur, t)
  {
  }

  lemma EscapeCons(s: seq<byte>)
    requires s != []
    ensures Escape(s) == Lex(Data(s[0])) + Escape(s[1..])
  {
    assert DataTokens(s) == [Data(s[0])] + DataTokens(s[1..]);
  }

  lemma DataTokensConcat(a: seq<byte>, b: seq<byte>)
    ensures DataTokens(a + b) == DataTokens(a) + DataTokens(b)
  {
    var l, r := DataTokens(a + b), DataTokens(a) + DataTokens(b);
    assert |l| == |r|;
    forall i | 0 <= i < |l|
      ensures l[i] == r[i]
    {
      if i < |a| {
        assert (a + b)[i] == a[i];
      } else {
        assert (a + b)[i] == b[i - |a|];
      }
    }
  }

  lemma EscapeSnoc(s: seq<byte>, b: byte)
    ensures Escape(s + [b]) == Escape(s) + (if b == Esc then [Esc, Esc] else [b])
  {
    DataTokensConcat(s, [b]);
    assert DataTokens([b]) == [Data(b)];
    SerializeConcat(DataTokens(s), [Data(b)]);
    assert Serialize([Data(b)]) == Lex(Data(b)) + Serialize([]);
  }

  lemma EscapeStep(s: seq<byte>, i: nat)
    requires i < |s|
    ensures Escape(s[..i + 1]) == Escape(s[..i]) + (if s[i] == Esc then [Esc, Esc] else [s[i]])
  {
    assert s[..i + 1] == s[..i] + [s[i]];
    EscapeSnoc(s[..i], s[i]);
  }

  /** Escaping adds exactly one byte per 0x7F of the chunk. */
  lemma {:induction false} EscapeLength(s: seq<byte>)
    ensures |Escape(s)| == |s| + Occurrences(s, Esc)
    decreases |s|
  {
    if s != [] {
      EscapeCons(s);
      EscapeLength(s[1..]);
    }
  }

  /** A chunk free of 0x7F is written unchanged. */
  lemma {:induction false} EscapePlain(s: seq<byte>)
    requires Esc !in s
    ensures Escape(s) == s
    decreases |s|
  {
    if s != [] {
      EscapeCons(s);
      EscapePlain(s[1..]);
      assert s == [s[0]] + s[1..];
    }
  }

  /** An escaped chunk never begins with a switch marker. */
  lemma EscapeNoMarker(s: seq<byte>, t: Source)
    requires s != []
    ensures var e := Escape(s); !(|e| >= 2 && e[0] == Esc && e[1] == Tag(t))
  {
  }

  /** The `append` closure (src/main.rs:42-59), given the state, the source
      of the read and the bytes it returned. */
  function Append(m: Mux, t: Source, chunk: seq<byte>): (r: Mux)
    // the old buffer is never changed, only extended
    ensures m.output <= r.output
    // zero-length read: only this stream's flag changes, and it is set
    ensures chunk == [] ==>
      r.output == m.output && r.current == m.current
      && Closed(r, t) && Closed(r, Other(t)) == Closed(m, Other(t))
    ensures chunk != [] ==>
      r.current == t && r.outClosed == m.outClosed && r.errClosed == m.errClosed
  {
    if chunk == [] then Close(m, t)
    else m.(current := t, output := m.output + MarkerBytes(m.current, t) + Escape(chunk))
  }

  /** What a non-empty read adds: its bytes plus one per 0x7F in it, plus a
      two-byte marker exactly when its source is not the active one. */
  lemma AppendShape(m: Mux, t: Source, chunk: seq<byte>)
    requires chunk != []
    ensures var r := Append(m, t, chunk);
      |r.output| == |m.output| + |chunk| + Occurrences(chunk, Esc) + (if m.current != t then 2 else 0)
    // a marker for `t` starts the new bytes exactly when the source changed
    ensures var r := Append(m, t, chunk);
      var added := r.output[|m.output|..];
      (m.current != t <==> |added| >= 2 && added[0] == Esc && added[1] == Tag(t))
  {
    EscapeLength(chunk);
    EscapeNoMarker(chunk, t);
    var added := MarkerBytes(m.current, t) + Escape(chunk);
    assert (m.output + added)[|m.output|..] == added;
  }

  /** The pass over a read buffer (src/main.rs:53-58): push each byte, and a
      second 0x7F after every 0x7F. */
  method EscapeInto(output: seq<byte>, buffer: seq<byte>) returns (r: seq<byte>)
    ensures r == output + Escape(buffer)
  {
    r := output;
    var i := 0;
    while i < |buffer|
      invariant 0 <= i <= |buffer|
      invariant r == output + Escape(buffer[..i])
    {
      var b := buffer[i];
      r := r + [b];
      if b == Esc {
        r := r + [Esc];
      }
      EscapeStep(buffer, i);
      i := i + 1;
    }
    assert buffer[..i] == buffer;
  }

  /** The closure as the source writes it: a zero-length read sets the flag;
      otherwise the marker pushes, then the escaping pass (src/main.rs:43-58). */
  method AppendChunk(m: Mux, t: Source, buffer: seq<byte>) returns (r: Mux)
    ensures r == Append(m, t, buffer)
  {
    if |buffer| == 0 {
      return Close(m, t);
    }
    var output := m.output;
    var current := m.current;
    if current != t {
      output := output + [Esc, Tag(t)];
      current := t;
    }
    output := EscapeInto(output, buffer);
    r := m.(current := current, output := output);
  }

  /** Two non-empty chunks from the same source in a row: no marker between
      them, only the second chunk's escaped bytes. */
  lemma SameSourceNoMarker(m: Mux, t: Source, a: seq<byte>, b: seq<byte>)
    requires a != [] && b != []
    ensures Append(Append(m, t, a), t, b).output == Append(m, t, a).output + Escape(b)
  {
    SwitchingBytes(t, t);
  }

  /** The appends of a run of reads, in order. */
  function Feed(m: Mux, cs: seq<Chunk>): (r: Mux)
    ensures m.output <= r.output
    ensures m.outClosed ==> r.outClosed
    ensures m.errClosed ==> r.errClosed
    decreases |cs|
  {
    if cs == [] then m else Feed(Append(m, cs[0].src, cs[0].data), cs[1..])
  }

  // ----- the independent description of what a run of reads carries -----

  /** A chunk's bytes, each attributed to its stream. */
  function Tags(src: Source, s: seq<byte>): (tb: seq<Tagged>)
    ensures |tb| == |s|
    ensures forall i :: 0 <= i < |s| ==> tb[i] == Tagged(src, s[i])
  {
    seq(|s|, i requires 0 <= i < |s| => Tagged(src, s[i]))
  }

  /** Every byte read, attributed to its stream, in read order. */
  function TaggedBytes(cs: seq<Chunk>): seq<Tagged>
    decreases |cs|
  {
    if cs == [] then [] else Tags(cs[0].src, cs[0].data) + TaggedBytes(cs[1..])
  }

  /** The bytes read from one stream, in read order. */
  function Project(cs: seq<Chunk>, src: Source): seq<byte>
    decreases |cs|
  {
    if cs == [] then [] else (if cs[0].src == src then cs[0].data else []) + Project(cs[1..], src)
  }

  /** All bytes read, in read order, regardless of stream. */
  function Concat(cs: seq<Chunk>): seq<byte>
    decreases |cs|
  {
    if cs == [] then [] else cs[0].data + Concat(cs[1..])
  }

  // ----- the token view of a run of appends -----

  /** The tokens one read contributes while `cur` is active. */
  function ChunkTokens(cur: Source, c: Chunk): seq<Token>
  {
    if c.data == [] then [] else Switching(cur, c.src) + DataTokens(c.data)
  }

  /** The tokens a run of reads contributes, starting with `cur` active. */
  function Tokens(cur: Source, cs: seq<Chunk>): seq<Token>
    decreases |cs|
  {
    if cs == [] then []
    else
      var next := if cs[0].data == [] then cur else cs[0].src;
      ChunkTokens(cur, cs[0]) + Tokens(next, cs[1..])
  }

  lemma {:induction false} InterpretDataTokens(cur: Source, s: seq<byte>)
    ensures Interpret(cur, DataTokens(s)) == Tags(cur, s)
    ensures After(cur, DataTokens(s)) == cur
    decreases |s|
  {
    if s != [] {
      assert DataTokens(s)[1..] == DataTokens(s[1..]);
      InterpretDataTokens(cur, s[1..]);
      assert Tags(cur, s) == [Tagged(cur, s[0])] + Tags(cur, s[1..]);
    }
  }

  /** One read, read back: its bytes attributed to its stream, which becomes
      the active one if the read was not empty. */
  lemma ChunkTokensMeaning(cur: Source, c: Chunk)
    ensures Interpret(cur, ChunkTokens(cur, c)) == Tags(c.src, c.data)
    ensures After(cur, ChunkTokens(cur, c)) == if c.data == [] then cur else c.src
    ensures MarkerCount(ChunkTokens(cur, c)) == if c.data != [] && c.src != cur then 1 else 0
  {
    if c.data != [] {
      var sw := Switching(cur, c.src);
      InterpretConcat(cur, sw, DataTokens(c.data));
      AfterConcat(cur, sw, DataTokens(c.data));
      assert After(cur, sw) == c.src && Interpret(cur, sw) == [] by {
        if cur != c.src {
          assert sw[1..] == [];
        }
      }
      InterpretDataTokens(c.src, c.data);
      MarkerCountConcat(sw, DataTokens(c.data));
      DataTokensNoMarker(c.data);
    }
  }

  lemma {:induction false} DataTokensNoMarker(s: seq<byte>)
    ensures MarkerCount(DataTokens(s)) == 0
    decreases |s|
  {
    if s != [] {
      assert DataTokens(s)[1..] == DataTokens(s[1..]);
      DataTokensNoMarker(s[1..]);
    }
  }

  /** One append writes the serialisation of the read's tokens. */
  lemma AppendTokens(m: Mux, c: Chunk)
    ensures Append(m, c.src, c.data).output == m.output + Serialize(ChunkTokens(m.current, c))
    ensures Append(m, c.src, c.data).current == After(m.current, ChunkTokens(m.current, c))
  {
    ChunkTokensMeaning(m.current, c);
    if c.data != [] {
      SerializeConcat(Switching(m.current, c.src), DataTokens(c.data));
      SwitchingBytes(m.current, c.src);
    }
  }

  /** One more read: `Feed` takes it, then the rest. */
  lemma FeedCons(m: Mux, cs: seq<Chunk>)
    requires cs != []
    ensures Feed(m, cs) == Feed(Append(m, cs[0].src, cs[0].data), cs[1..])
  {
  }

  /** The tokens of a run of reads: the first read's, then the rest's from
      the source that read leaves active. */
  lemma TokensCons(m: Mux, cs: seq<Chunk>)
    requires cs != []
    ensures Tokens(m.current, cs)
      == ChunkTokens(m.current, cs[0]) + Tokens(Append(m, cs[0].src, cs[0].data).current, cs[1..])
  {
  }

  /** A run of appends writes the serialisation of its tokens after the old
      buffer. */
  lemma {:induction false} FeedTokens(m: Mux, cs: seq<Chunk>)
    ensures Feed(m, cs).output == m.output + Serialize(Tokens(m.current, cs))
    decreases |cs|
  {
    if cs != [] {
      var m' := Append(m, cs[0].src, cs[0].data);
      var head := ChunkTokens(m.current, cs[0]);
      var rest := Tokens(m'.current, cs[1..]);
      FeedCons(m, cs);
      TokensCons(m, cs);
      AppendTokens(m, cs[0]);
      FeedTokens(m', cs[1..]);
      SerializeConcat(head, rest);
      calc {
        Feed(m, cs).output;
        m'.output + Serialize(rest);
        (m.output + Serialize(head)) + Serialize(rest);
        m.output + (Serialize(head) + Serialize(rest));
      }
    }
  }

  /** A run of appends leaves active the source its tokens end with. */
  lemma {:induction false} FeedCurrent(m: Mux, cs: seq<Chunk>)
    ensures Feed(m, cs).current == After(m.current, Tokens(m.current, cs))
    decreases |cs|
  {
    if cs != [] {
      var m' := Append(m, cs[0].src, cs[0].data);
      FeedCons(m, cs);
      TokensCons(m, cs);
      AppendTokens(m, cs[0]);
      FeedCurrent(m', cs[1..]);
      AfterConcat(m.current, ChunkTokens(m.current, cs[0]), Tokens(m'.current, cs[1..]));
    }
  }

  lemma {:induction false} InterpretTokens(cur: Source, cs: seq<Chunk>)
    ensures Interpret(cur, Tokens(cur, cs)) == TaggedBytes(cs)
    decreases |cs|
  {
    if cs != [] {
      var next := if cs[0].data == [] then cur else cs[0].src;
      ChunkTokensMeaning(cur, cs[0]);
      InterpretConcat(cur, ChunkTokens(cur, cs[0]), Tokens(next, cs[1..]));
      InterpretTokens(next, cs[1..]);
    }
  }

  /** Round trip: the reader of the merged buffer recovers every byte read,
      in read order, each attributed to the stream it came from. In
      particular the buffer never holds a dangling or unknown escape. */
  lemma RoundTrip(cs: seq<Chunk>)
    ensures Decode(Feed(Start, cs).output) == Ok(TaggedBytes(cs))
  {
    FeedTokens(Start, cs);
    assert Feed(Start, cs).output == Serialize(Tokens(Stdout, cs));
    TokenizeSerialize(Tokens(Stdout, cs));
    InterpretTokens(Stdout, cs);
  }

  lemma {:induction false} StreamOfTags(src: Source, s: seq<byte>, which: Source)
    ensures StreamOf(Tags(src, s), which) == if src == which then s else []
    decreases |s|
  {
    if s != [] {
      assert Tags(src, s)[1..] == Tags(src, s[1..]);
      StreamOfTags(src, s[1..], which);
      assert s == [s[0]] + s[1..];
    }
  }

  lemma {:induction false} StreamOfTaggedBytes(cs: seq<Chunk>, which: Source)
    ensures StreamOf(TaggedBytes(cs), which) == Project(cs, which)
    decreases |cs|
  {
    if cs != [] {
      StreamOfConcat(Tags(cs[0].src, cs[0].data), TaggedBytes(cs[1..]), which);
      StreamOfTags(cs[0].src, cs[0].data, which);
      StreamOfTaggedBytes(cs[1..], which);
    }
  }

  /** Per stream: decoding the merged buffer and keeping one source's bytes
      gives the concatenation of that stream's reads, in order. */
  lemma StreamsRoundTrip(cs: seq<Chunk>, which: Source)
    ensures Decode(Feed(Start, cs).output).Ok?
    ensures StreamOf(Decode(Feed(Start, cs).output).value, which) == Project(cs, which)
  {
    RoundTrip(cs);
    StreamOfTaggedBytes(cs, which);
  }

  lemma {:induction false} ChangesTags(cur: Source, src: Source, s: seq<byte>)
    ensures Changes(cur, Tags(src, s)) == if s != [] && src != cur then 1 else 0
    decreases |s|
  {
    if s != [] {
      assert Tags(src, s)[1..] == Tags(src, s[1..]);
      ChangesTags(src, src, s[1..]);
    }
  }

  lemma {:induction false} MarkerCountTokens(cur: Source, cs: seq<Chunk>)
    ensures MarkerCount(Tokens(cur, cs)) == Changes(cur, TaggedBytes(cs))
    decreases |cs|
  {
    if cs != [] {
      var c := cs[0];
      var next := if c.data == [] then cur else c.src;
      var tb := Tags(c.src, c.data);
      ChunkTokensMeaning(cur, c);
      MarkerCountConcat(ChunkTokens(cur, c), Tokens(next, cs[1..]));
      ChangesConcat(cur, tb, TaggedBytes(cs[1..]));
      ChangesTags(cur, c.src, c.data);
      assert LastSource(cur, tb) == next;
      MarkerCountTokens(next, cs[1..]);
    }
  }

  /** The merged buffer holds exactly one marker per change of source in
      the byte order read: none that is redundant, none missing. */
  lemma MarkersAreChanges(cs: seq<Chunk>)
    ensures Tokenize(Feed(Start, cs).output).Ok?
    ensures MarkerCount(Tokenize(Feed(Start, cs).output).value) == Changes(Stdout, TaggedBytes(cs))
  {
    FeedTokens(Start, cs);
    assert Feed(Start, cs).output == Serialize(Tokens(Stdout, cs));
    TokenizeSerialize(Tokens(Stdout, cs));
    MarkerCountTokens(Stdout, cs);
  }

  /** Reads from stdout only, with no 0x7F in them, are written verbatim:
      with stdout active from the start no marker is ever written. */
  lemma AppendPlain(m: Mux, data: seq<byte>)
    requires m.current == Stdout && Esc !in data
    ensures Append(m, Stdout, data).output == m.output + data
    ensures Append(m, Stdout, data).current == Stdout
  {
    EscapePlain(data);
  }

  lemma {:induction false} PlainStdout(m: Mux, cs: seq<Chunk>)
    requires m.current == Stdout
    requires forall i | 0 <= i < |cs| :: cs[i].src == Stdout && Esc !in cs[i].data
    ensures Feed(m, cs).output == m.output + Concat(cs)
    ensures Feed(m, cs).current == Stdout
    decreases |cs|
  {
    if cs != [] {
      var c := cs[0];
      var m' := Append(m, Stdout, c.data);
      AppendPlain(m, c.data);
      FeedCons(m, cs);
      var rest := cs[1..];
      assert forall i | 0 <= i < |rest| :: rest[i] == cs[i + 1];
      PlainStdout(m', rest);
      calc {
        Feed(m, cs).output;
        m'.output + Concat(cs[1..]);
        (m.output + c.data) + Concat(cs[1..]);
        m.output + (c.data + Concat(cs[1..]));
      }
    }
  }

  /** `echo abc`: one read of "abc\n" from stdout, then end of input on both
      pipes, gives the buffer "abc\n" (test at src/main.rs:205-208). */
  lemma EchoAbc()
    ensures Feed(Start, [Chunk(Stdout, [0x61, 0x62, 0x63, 0x0A]), Chunk(Stdout, []), Chunk(Stderr, [])])
      == Mux(Stdout, [0x61, 0x62, 0x63, 0x0A], true, true)
  {
    var cs := [Chunk(Stdout, [0x61, 0x62, 0x63, 0x0A]), Chunk(Stdout, []), Chunk(Stderr, [])];
    var m1 := Append(Start, Stdout, cs[0].data);
    AppendPlain(Start, cs[0].data);
    var m2 := Append(m1, Stdout, []);
    var m3 := Append(m2, Stderr, []);
    FeedCons(Start, cs);
    FeedCons(m1, cs[1..]);
    FeedCons(m2, cs[1..][1..]);
    assert cs[1..][1..][1..] == [];
    assert m3 == Mux(Stdout, [0x61, 0x62, 0x63, 0x0A], true, true);
  }

  /** The reads of a child that writes "X" to stdout, then "Y" to stderr,
      then "Z" to stdout. */
  function XYZ(): seq<Chunk>
  {
    [Chunk(Stdout, [0x58]), Chunk(Stderr, [0x59]), Chunk(Stdout, [0x5A])]
  }

  /** Their buffer: one marker to stderr and one back to stdout. */
  lemma InterleavedXYZ()
    ensures Feed(Start, XYZ()).output == [0x58, Esc, TagStderr, 0x59, Esc, TagStdout, 0x5A]
  {
    var cs := XYZ();
    var m1 := Append(Start, Stdout, [0x58]);
    assert m1.output == [0x58] by { EscapePlain([0x58]); }
    var m2 := Append(m1, Stderr, [0x59]);
    assert m2.output == [0x58, Esc, TagStderr, 0x59] by { EscapePlain([0x59]); }
    var m3 := Append(m2, Stdout, [0x5A]);
    assert m3.output == [0x58, Esc, TagStderr, 0x59, Esc, TagStdout, 0x5A] by { EscapePlain([0x5A]); }
    assert cs[1..][1..][1..] == [];
    assert Feed(Start, cs) == m3;
  }

  /** Decoding that buffer gives stdout "XZ" and stderr "Y". */
  lemma InterleavedXYZStreams()
    ensures Decode(Feed(Start, XYZ()).output).Ok?
    ensures StreamOf(Decode(Feed(Start, XYZ()).output).value, Stdout) == [0x58, 0x5A]
    ensures StreamOf(Decode(Feed(Start, XYZ()).output).value, Stderr) == [0x59]
  {
    var cs := XYZ();
    StreamsRoundTrip(cs, Stdout);
    StreamsRoundTrip(cs, Stderr);
    assert cs[1..][1..][1..] == [];
  }
}

=== FILE: results.dfy ===
/** Failure-carrying values shared by the other modules: an optional value
    (Rust's `Option`) and a value-or-error (Rust's `Result`). */
module Results {

  datatype Option<+T> = None | Some(value: T)

  datatype Result<+T, +E> = Ok(value: T) | Err(error: E)
}

=== FILE: sandbox.dfy ===
/** The request handler `sandbox` (src/main.rs:80-149), reduced to what
    decides its result: the file loop with the name rule, the spawn, the
    multiplexed capture under the 10-second deadline, and the mapping of the
    timed outcome to the response status.

    Everything the handler gets from the operating system is a field of
    `Env`: whether the temporary directory and each write succeed, whether
    `bwrap` spawns, the read completions the multiplexer observes, how
    feeding stdin and waiting for the child stand when the deadline fires,
    and how many read completions come before it. The handler's visible
    side effects are recorded as a trace of `Effect`s. */
module Sandbox {
  import opened Results
  import opened Wire
  import opened Multiplexer
  import opened ReadLoop
  import opened Filenames

  /** Rust's `i32`, the type of an exit code. */
  type i32 = x: int | -0x8000_0000 <= x < 0x8000_0000

  /** `InvalidInput` is the rejected file name; `Io` every other error. */
  datatype Error = InvalidInput | Io

  datatype FileEntry = FileEntry(name: string, contents: string)

  /** The request body; `files` in the order the map is iterated. */
  datatype Request = Request(files: seq<FileEntry>, stdin: string, code: string)

  datatype Response = Response(status: Option<i32>, output: seq<byte>)

  /** Side effects outside the process: a file written into the workspace,
      and the start of the sandboxed child. */
  datatype Effect = Wrote(name: string) | Spawned

  /** Where a future stands when the 10-second deadline fires: still
      running, failed before it, or finished before it with a value. */
  datatype Completion<+T> = Pending | Failed | Done(value: T)

  datatype Env = Env(
    tempdirOk: bool,              // `tempfile::tempdir()` succeeds
    failingWrites: set<string>,   // names whose `fs::write` fails
    spawnOk: bool,                // `bwrap` is spawned
    completions: seq<Event>,      // read completions, in the order `select!` sees them
    stdinFed: Completion<()>,     // writing and shutting down stdin
    wait: Completion<Option<i32>>, // `child.wait()`, finishing with `status.code()`
    deadline: Option<nat>)        // Some(k): the deadline fires after k read completions;
                                  // None: after all of them

  /** Outcome of the file loop: the files written, and the error that ended
      it early, if any. */
  datatype Materialized = Materialized(written: seq<FileEntry>, failure: Option<Error>)

  /** The file loop (src/main.rs:82-94): each name is checked and, if
      accepted, written; the first rejected name or failed write ends the
      loop with an error. */
  function WriteFiles(files: seq<FileEntry>, failing: set<string>): (r: Materialized)
    ensures r.written <= files
    ensures forall f | f in r.written :: ValidName(f.name) && f.name !in failing
    ensures r.failure == None <==> r.written == files
    ensures r.failure == None <==> forall f | f in files :: ValidName(f.name) && f.name !in failing
    ensures r.failure == Some(InvalidInput) ==>
      |r.written| < |files| && !ValidName(files[|r.written|].name)
    ensures r.failure == Some(Io) ==>
      |r.written| < |files| && ValidName(files[|r.written|].name)
      && files[|r.written|].name in failing
    decreases |files|
  {
    if files == [] then Materialized([], None)
    else if !ValidName(files[0].name) then Materialized([], Some(InvalidInput))
    else if files[0].name in failing then Materialized([], Some(Io))
    else
      var rest := WriteFiles(files[1..], failing);
      assert files == [files[0]] + files[1..];
      Materialized([files[0]] + rest.written, rest.failure)
  }

  function WroteAll(files: seq<FileEntry>): (e: seq<Effect>)
    ensures |e| == |files|
    ensures forall i | 0 <= i < |files| :: e[i] == Wrote(files[i].name)
  {
    seq(|files|, i requires 0 <= i < |files| => Wrote(files[i].name))
  }

  /** What the timed future yields (src/main.rs:129-140): the deadline
      elapsed, one of the three joined futures failed, or all three finished
      and the child's `status.code()` is available. */
  datatype Timed = Elapsed | InnerError | Exited(code: Option<i32>)

  /** The read completions that come before the deadline. */
  function Window(env: Env): (w: seq<Event>)
    ensures w <= env.completions
    ensures env.deadline.None? ==> w == env.completions
    ensures env.deadline.Some? ==> |w| == if env.deadline.value <= |env.completions| then env.deadline.value else |env.completions|
  {
    match env.deadline
    case None => env.completions
    case Some(k) => env.completions[..if k <= |env.completions| then k else |env.completions|]
  }

  /** Where the drain stands at the deadline: `read?` has failed, it is
      still waiting for a completion, or it has returned. */
  function DrainCompletion(d: Drained): (c: Completion<()>)
    ensures c.Failed? <==> d.end == ReadError
    ensures c.Pending? <==> d.end == Starved
  {
    match d.end
    case ReadError => Failed
    case Starved => Pending
    case _ => Done(())
  }

  /** `try_join!` of three futures (src/main.rs:130-137): the first failure
      fails the join, and it finishes only when all three have finished. */
  function TryJoin<A, B, C>(a: Completion<A>, b: Completion<B>, c: Completion<C>): (r: Completion<(A, B, C)>)
    ensures r.Failed? <==> a.Failed? || b.Failed? || c.Failed?
    ensures r.Done? <==> a.Done? && b.Done? && c.Done?
    ensures r.Done? ==> r.value == (a.value, b.value, c.value)
  {
    if a.Failed? || b.Failed? || c.Failed? then Failed
    else if a.Pending? || b.Pending? || c.Pending? then Pending
    else Done((a.value, b.value, c.value))
  }

  /** The race of stdin feeding, draining and waiting against the deadline
      (src/main.rs:129-140). Any failure before the deadline fails the
      request; the child's code is reported only when all three finished
      before it; otherwise the deadline elapses. */
  function Race(env: Env): (t: Timed)
    ensures t.InnerError? <==>
      Drain(Window(env)).end == ReadError || env.stdinFed.Failed? || env.wait.Failed?
    ensures t.Exited? <==>
      && (Drain(Window(env)).end == BothClosed || Drain(Window(env)).end == OverCeiling)
      && env.stdinFed.Done? && env.wait.Done?
    ensures t.Exited? ==> t.code == env.wait.value
  {
    match TryJoin(env.stdinFed, DrainCompletion(Drain(Window(env))), env.wait)
    case Pending => Elapsed
    case Failed => InnerError
    case Done(results) => Exited(results.2)
  }

  /** The buffer `output` when the race ends. It lives outside the timed
      future, so a deadline leaves in it what the drain had written so far:
      a prefix of what an uninterrupted drain writes, and well formed. */
  function Captured(env: Env): (out: seq<byte>)
    ensures out <= Drain(env.completions).mux.output
    ensures Decode(out) == Ok(TaggedBytes(Drain(Window(env)).chunks))
  {
    DrainPrefix(env.completions, |Window(env)|);
    assert env.completions[..|Window(env)|] == Window(env);
    DrainRoundTrip(Window(env));
    Drain(Window(env)).mux.output
  }

  /** The status mapping (src/main.rs:141-144). */
  function StatusOf(t: Timed): (r: Result<Option<i32>, Error>)
    // an elapsed deadline is not an error; a failed inner future is
    ensures r.Err? <==> t.InnerError?
    ensures r.Err? ==> r.error == Io
    // the status is absent exactly on a deadline or when the child has no exit code
    ensures r.Ok? && r.value.None? <==> t.Elapsed? || t == Exited(None)
    ensures t.Exited? ==> r == Ok(t.code)
  {
    match t
    case Elapsed => Ok(None)
    case InnerError => Err(Io)
    case Exited(code) => Ok(code)
  }

  /** The handler's result and its side effects. */
  datatype Reply = Reply(result: Result<Response, Error>, effects: seq<Effect>)

  function Handle(req: Request, env: Env): (r: Reply)
    // the child is started only after every name has been accepted and written
    ensures Spawned in r.effects ==>
      (forall f | f in req.files :: ValidName(f.name)) && r.effects == WroteAll(req.files) + [Spawned]
    // only accepted names are ever written
    ensures forall e | e in r.effects && e.Wrote? :: ValidName(e.name)
    // a bad name fails the request and nothing is spawned
    ensures (exists f | f in req.files :: !ValidName(f.name)) ==> r.result.Err? && Spawned !in r.effects
    ensures r.result.Ok? ==> Spawned in r.effects
  {
    if !env.tempdirOk then Reply(Err(Io), [])
    else
      var w := WriteFiles(req.files, env.failingWrites);
      var wrote := WroteAll(w.written);
      assert Spawned !in wrote;
      if w.failure.Some? then
        Reply(Err(w.failure.value), wrote)
      else if !env.spawnOk then Reply(Err(Io), wrote)
      else
        var effects := wrote + [Spawned];
        assert w.written == req.files;
        assert forall e | e in effects && e.Wrote? :: e in wrote;
        match StatusOf(Race(env))
        case Err(e) => Reply(Err(e), effects)
        case Ok(status) => Reply(Ok(Response(status, Captured(env))), effects)
  }

  /** Everything up to the race succeeds: the directory, every name, every
      write, the spawn. */
  predicate Launches(req: Request, env: Env)
  {
    && env.tempdirOk
    && env.spawnOk
    && forall f | f in req.files :: ValidName(f.name) && f.name !in env.failingWrites
  }

  /** A request that launches writes every file, in order, then spawns the
      child, whatever the race's outcome. */
  lemma LaunchedEffects(req: Request, env: Env)
    requires Launches(req, env)
    ensures Handle(req, env).effects == WroteAll(req.files) + [Spawned]
  {
    assert WriteFiles(req.files, env.failingWrites).written == req.files;
  }

  /** The file loop reaches a rejected name when no write before it fails,
      and stops there with `InvalidInput`. */
  lemma {:induction false} StopsAtRejectedName(files: seq<FileEntry>, failing: set<string>, j: nat)
    requires j < |files| && !ValidName(files[j].name)
    requires forall i | 0 <= i < j :: files[i].name !in failing
    ensures WriteFiles(files, failing).failure == Some(InvalidInput)
    decreases j
  {
    if j > 0 && ValidName(files[0].name) {
      assert files[0].name !in failing;
      StopsAtRejectedName(files[1..], failing, j - 1);
    }
  }

  /** A rejected name that no failed write precedes fails the request with
      `InvalidInput`, after writing only the accepted names before it and
      without spawning anything. */
  lemma RejectedName(req: Request, env: Env, j: nat)
    requires env.tempdirOk
    requires j < |req.files| && !ValidName(req.files[j].name)
    requires forall i | 0 <= i < j :: req.files[i].name !in env.failingWrites
    ensures Handle(req, env).result == Err(InvalidInput)
    ensures Spawned !in Handle(req, env).effects
  {
    StopsAtRejectedName(req.files, env.failingWrites, j);
  }

  /** The deadline fires after `k` read completions, with no future failed
      and one still running: the status is absent and the response carries
      the buffer as the drain had left it, which is a prefix of what an
      uninterrupted drain would have written and decodes to the reads taken
      so far. */
  lemma DeadlineKeepsOutput(req: Request, env: Env, k: nat)
    requires Launches(req, env)
    requires env.deadline == Some(k) && k <= |env.completions|
    requires Drain(env.completions[..k]).end != ReadError && !env.stdinFed.Failed? && !env.wait.Failed?
    requires Drain(env.completions[..k]).end == Starved || env.stdinFed.Pending? || env.wait.Pending?
    ensures var partial := Drain(env.completions[..k]);
      && Handle(req, env).result == Ok(Response(None, partial.mux.output))
      && partial.mux.output <= Drain(env.completions).mux.output
      && Decode(partial.mux.output) == Ok(TaggedBytes(partial.chunks))
  {
    assert Window(env) == env.completions[..k];
  }

  /** A drain still waiting when the completions run out cannot finish, so
      unless the stdin feed or the wait fails, the request ends by the
      deadline: status absent, output kept. */
  lemma StarvedRunTimesOut(req: Request, env: Env)
    requires Launches(req, env) && env.deadline == None
    requires Drain(env.completions).end == Starved
    requires !env.stdinFed.Failed? && !env.wait.Failed?
    ensures Handle(req, env).result == Ok(Response(None, Drain(env.completions).mux.output))
  {
  }

  /** All three futures finish before the deadline: the status is the
      child's exit code and the output is the whole drained buffer. */
  lemma CompletedRun(req: Request, env: Env, code: Option<i32>)
    requires Launches(req, env)
    requires Drain(Window(env)).end == BothClosed || Drain(Window(env)).end == OverCeiling
    requires env.stdinFed.Done? && env.wait == Done(code)
    ensures Handle(req, env).result == Ok(Response(code, Drain(Window(env)).mux.output))
  {
  }

  /** A failed read, stdin write or wait before the deadline fails the
      whole request, whatever the other futures are doing; the output
      gathered so far is dropped. */
  lemma InnerFailureFails(req: Request, env: Env)
    requires Launches(req, env)
    requires Drain(Window(env)).end == ReadError || env.stdinFed.Failed? || env.wait.Failed?
    ensures Handle(req, env).result == Err(Io)
  {
  }

  /** A read that fails before a later deadline fails the request, even
      though the child exits normally. */
  lemma ExampleReadFailure()
    ensures Handle(Request([], "", "cat"),
      Env(true, {}, true, [ReadFailed(Stdout)], Done(()), Done(Some(0)), Some(1))).result == Err(Io)
  {
    var env := Env(true, {}, true, [ReadFailed(Stdout)], Done(()), Done(Some(0)), Some(1));
    assert Window(env) == env.completions;
    assert DrainFrom(Start, env.completions, 0).end == ReadError;
    InnerFailureFails(Request([], "", "cat"), env);
  }

  /** Feeding stdin fails while the drain is still waiting: the request
      fails rather than timing out. */
  lemma ExampleStdinFailure()
    ensures Handle(Request([], "abc", "cat"), Env(true, {}, true, [], Failed, Done(Some(0)), None)).result == Err(Io)
  {
    InnerFailureFails(Request([], "abc", "cat"), Env(true, {}, true, [], Failed, Done(Some(0)), None));
  }

  /** The completions of a child that writes `data` to stdout and then
      exits: the read of `data`, if there is any, then end of input on
      stdout and on stderr. */
  function StdoutOnly(data: seq<byte>): seq<Event>
  {
    (if data == [] then [] else [Delivered(Chunk(Stdout, data))])
      + [Delivered(Chunk(Stdout, [])), Delivered(Chunk(Stderr, []))]
  }

  /** Such a child's output, if free of 0x7F, is captured verbatim; every
      completion is a read the loop takes, and it stops because both
      streams are closed. */
  lemma StdoutOnlyDrain(data: seq<byte>)
    requires Esc !in data && |data| <= Ceiling
    ensures Drain(StdoutOnly(data)).mux.output == data
    ensures Drain(StdoutOnly(data)).end == BothClosed
    ensures |Drain(StdoutOnly(data)).chunks| == |StdoutOnly(data)|
  {
    var evs := StdoutOnly(data);
    var j := |evs| - 2;
    assert evs[j] == Delivered(Chunk(Stdout, [])) && evs[j + 1] == Delivered(Chunk(Stderr, []));
    // the state before the end-of-input completions
    var m1 := if data == [] then Start else Append(Start, Stdout, data);
    AppendPlain(Start, data);
    assert m1.output == data && !m1.outClosed && !m1.errClosed;
    var m2 := Append(m1, Stdout, []);
    var m3 := Append(m2, Stderr, []);
    assert DrainFrom(m3, evs, j + 2) == Drained(m3, BothClosed, j + 2, []);
    assert DrainFrom(m2, evs, j + 1) == DrainFrom(m3, evs, j + 2).(chunks := [evs[j + 1].c]);
    assert DrainFrom(m1, evs, j) == DrainFrom(m2, evs, j + 1).(chunks := [evs[j].c, evs[j + 1].c]);
    if data != [] {
      assert evs[0] == Delivered(Chunk(Stdout, data));
      assert DrainFrom(Start, evs, 0) == DrainFrom(m1, evs, 1).(chunks := [evs[0].c] + DrainFrom(m1, evs, 1).chunks);
    }
  }

  /** An environment where every call succeeds and the child writes `data`
      to stdout and exits with `code` before the deadline. */
  function Finished(data: seq<byte>, code: i32): Env
  {
    Env(true, {}, true, StdoutOnly(data), Done(()), Done(Some(code)), None)
  }

  /** `false` exits with status 1 and prints nothing (src/main.rs:200-203). */
  lemma ExampleStatus()
    ensures Handle(Request([], "", "false"), Finished([], 1)).result == Ok(Response(Some(1), []))
  {
    StdoutOnlyDrain([]);
    CompletedRun(Request([], "", "false"), Finished([], 1), Some(1));
  }

  /** `echo abc` prints "abc\n" with no marker before it, because stdout is
      the initially active source (src/main.rs:205-208). */
  lemma ExampleOutput()
    ensures Handle(Request([], "", "echo abc"), Finished([0x61, 0x62, 0x63, 0x0A], 0)).result
      == Ok(Response(Some(0), [0x61, 0x62, 0x63, 0x0A]))
  {
    StdoutOnlyDrain([0x61, 0x62, 0x63, 0x0A]);
    CompletedRun(Request([], "", "echo abc"), Finished([0x61, 0x62, 0x63, 0x0A], 0), Some(0));
  }

  /** `cat` with stdin "abc" echoes it (src/main.rs:210-213); the stdin feed
      appears only as its success. */
  lemma ExampleStdin()
    ensures Handle(Request([], "abc", "cat"), Finished([0x61, 0x62, 0x63], 0)).result
      == Ok(Response(Some(0), [0x61, 0x62, 0x63]))
  {
    StdoutOnlyDrain([0x61, 0x62, 0x63]);
    CompletedRun(Request([], "abc", "cat"), Finished([0x61, 0x62, 0x63], 0), Some(0));
  }

  /** `cat *` over files `a` and `c` holding "b" and "d" writes both files,
      spawns, and returns "bd" (src/main.rs:215-218). */
  lemma ExampleFiles()
    ensures var req := Request([FileEntry("a", "b"), FileEntry("c", "d")], "", "cat *");
      var env := Finished([0x62, 0x64], 0);
      Handle(req, env) == Reply(Ok(Response(Some(0), [0x62, 0x64])), [Wrote("a"), Wrote("c"), Spawned])
  {
    var req := Request([FileEntry("a", "b"), FileEntry("c", "d")], "", "cat *");
    var env := Finished([0x62, 0x64], 0);
    assert ValidName("a") && ValidName("c");
    assert Launches(req, env);
    LaunchedEffects(req, env);
    assert WroteAll(req.files) == [Wrote("a"), Wrote("c")];
    StdoutOnlyDrain([0x62, 0x64]);
    CompletedRun(req, env, Some(0));
  }
}

=== FILE: wire.dfy ===
/** The self-describing byte format that merges a child's stdout and stderr
    into one buffer.

    The byte 0x7F is reserved: on the wire it is always the first byte of a
    two-byte sequence. `0x7F 0x7F` stands for one literal 0x7F data byte;
    `0x7F 'O'` and `0x7F 'E'` are switch markers saying that the following data
    comes from stdout or stderr. A reader starts out assuming stdout.

    The format is described here at two levels: a sequence of `Token`s
    (data bytes and switches) and its serialisation into bytes. `Tokenize`
    is the decoder a reader of the merged buffer would write; it is proved to
    be exactly the inverse of `Serialize`. */
module Wire {
  import opened Results

  type byte = bv8

  /** The escape / marker lead byte. */
  const Esc: byte := 0x7F
  /** ASCII 'O', the tag of stdout. */
  const TagStdout: byte := 0x4F
  /** ASCII 'E', the tag of stderr. */
  const TagStderr: byte := 0x45

  datatype Source = Stdout | Stderr

  /** The tag byte written after 0x7F to announce a switch to `s`. */
  function Tag(s: Source): (t: byte)
    ensures t != Esc
    ensures s == Stdout <==> t == TagStdout
    ensures s == Stderr <==> t == TagStderr
  {
    match s
    case Stdout => TagStdout
    case Stderr => TagStderr
  }

  /** The source a tag byte announces, if it is a tag at all. */
  function SourceOfTag(b: byte): (r: Option<Source>)
    ensures r.Some? <==> b == TagStdout || b == TagStderr
    ensures r.Some? ==> Tag(r.value) == b
  {
    if b == TagStdout then Some(Stdout)
    else if b == TagStderr then Some(Stderr)
    else None
  }

  /** One unit of the merged stream: a data byte of the active source, or a
      change of the active source. */
  datatype Token = Data(b: byte) | Switch(to: Source)

  /** The wire bytes of one token. */
  function Lex(t: Token): (r: seq<byte>)
    ensures 1 <= |r| <= 2
    ensures Esc in r <==> |r| == 2
    ensures |r| == 2 ==> r[0] == Esc
  {
    match t
    case Data(b) => if b == Esc then [Esc, Esc] else [b]
    case Switch(s) => [Esc, Tag(s)]
  }

  /** The wire bytes of a token sequence. */
  function Serialize(ts: seq<Token>): (r: seq<byte>)
    ensures |ts| <= |r| <= 2 * |ts|
    decreases |ts|
  {
    if ts == [] then [] else Lex(ts[0]) + Serialize(ts[1..])
  }

  lemma {:induction false} SerializeConcat(a: seq<Token>, b: seq<Token>)
    ensures Serialize(a + b) == Serialize(a) + Serialize(b)
    decreases |a|
  {
    if a == [] {
      assert a + b == b;
    } else {
      assert (a + b)[1..] == a[1..] + b;
      SerializeConcat(a[1..], b);
    }
  }

  /** What goes wrong when reading a buffer that is not a serialised token
      sequence. */
  datatype DecodeError =
    | DanglingEscape          // the buffer ends right after a 0x7F
    | UnknownMarker(b: byte)  // 0x7F followed by something other than 0x7F, 'O' or 'E'

  function PrependOk(t: Token, r: Result<seq<Token>, DecodeError>): Result<seq<Token>, DecodeError>
  {
    match r
    case Ok(ts) => Ok([t] + ts)
    case Err(e) => Err(e)
  }

  /** The reader's decoding rule: a byte other than 0x7F is data; on 0x7F the
      next byte decides between a literal 0x7F and a switch. */
  function Tokenize(s: seq<byte>): Result<seq<Token>, DecodeError>
    decreases |s|
  {
    if s == [] then Ok([])
    else if s[0] != Esc then PrependOk(Data(s[0]), Tokenize(s[1..]))
    else if |s| == 1 then Err(DanglingEscape)
    else if s[1] == Esc then PrependOk(Data(Esc), Tokenize(s[2..]))
    else match SourceOfTag(s[1])
      case Some(src) => PrependOk(Switch(src), Tokenize(s[2..]))
      case None => Err(UnknownMarker(s[1]))
  }

  /** Reading a token's bytes yields that token and leaves the rest of the
      buffer to be read on its own. */
  lemma TokenizeLex(t: Token, rest: seq<byte>)
    ensures Tokenize(Lex(t) + rest) == PrependOk(t, Tokenize(rest))
  {
  }

  /** Decoding undoes serialisation. */
  lemma {:induction false} TokenizeSerialize(ts: seq<Token>)
    ensures Tokenize(Serialize(ts)) == Ok(ts)
    decreases |ts|
  {
    if ts != [] {
      TokenizeLex(ts[0], Serialize(ts[1..]));
      TokenizeSerialize(ts[1..]);
      assert [ts[0]] + ts[1..] == ts;
    }
  }

  /** A buffer that decodes at all is the serialisation of what it decodes
      to: there is no second way to write a token sequence. */
  lemma {:induction false} SerializeTokenize(s: seq<byte>, ts: seq<Token>)
    requires Tokenize(s) == Ok(ts)
    ensures Serialize(ts) == s
    decreases |s|
  {
    if s == [] {
    } else if s[0] != Esc {
      var rest := Tokenize(s[1..]);
      assert rest.Ok? && ts == [Data(s[0])] + rest.value;
      SerializeTokenize(s[1..], rest.value);
      assert ts[1..] == rest.value;
      assert s == [s[0]] + s[1..];
    } else {
      assert |s| >= 2;
      var rest := Tokenize(s[2..]);
      assert rest.Ok?;
      SerializeTokenize(s[2..], rest.value);
      assert ts[1..] == rest.value;
      assert s == [s[0], s[1]] + s[2..];
    }
  }

  /** The decoder accepts a buffer exactly when it is a serialised token
      sequence, and then returns that sequence. */
  lemma TokenizeIff(s: seq<byte>, ts: seq<Token>)
    ensures Tokenize(s) == Ok(ts) <==> Serialize(ts) == s
  {
    if Tokenize(s) == Ok(ts) {
      SerializeTokenize(s, ts);
    }
    if Serialize(ts) == s {
      TokenizeSerialize(ts);
    }
  }

  /** A buffer cut right after a lead byte is reported as such, never
      misread: whatever well-formed bytes come before the lone 0x7F. */
  lemma {:induction false} DanglingEscapeRejected(ts: seq<Token>)
    ensures Tokenize(Serialize(ts) + [Esc]) == Err(DanglingEscape)
    decreases |ts|
  {
    if ts == [] {
      assert Serialize(ts) + [Esc] == [Esc];
    } else {
      assert Serialize(ts) + [Esc] == Lex(ts[0]) + (Serialize(ts[1..]) + [Esc]);
      TokenizeLex(ts[0], Serialize(ts[1..]) + [Esc]);
      DanglingEscapeRejected(ts[1..]);
    }
  }

  /** A data byte attributed to the stream it came from. */
  datatype Tagged = Tagged(src: Source, b: byte)

  /** The active source after reading `ts` starting from `cur`. */
  function After(cur: Source, ts: seq<Token>): Source
    decreases |ts|
  {
    if ts == [] then cur
    else match ts[0]
      case Data(_) => After(cur, ts[1..])
      case Switch(s) => After(s, ts[1..])
  }

  /** The data bytes of `ts`, each attributed to the source active at it. */
  function Interpret(cur: Source, ts: seq<Token>): seq<Tagged>
    decreases |ts|
  {
    if ts == [] then []
    else match ts[0]
      case Data(b) => [Tagged(cur, b)] + Interpret(cur, ts[1..])
      case Switch(s) => Interpret(s, ts[1..])
  }

  lemma {:induction false} AfterConcat(cur: Source, a: seq<Token>, b: seq<Token>)
    ensures After(cur, a + b) == After(After(cur, a), b)
    decreases |a|
  {
    if a == [] {
      assert a + b == b;
    } else {
      assert (a + b)[0] == a[0];
      assert (a + b)[1..] == a[1..] + b;
      match a[0]
      case Data(_) => AfterConcat(cur, a[1..], b);
      case Switch(s) => AfterConcat(s, a[1..], b);
    }
  }

  lemma {:induction false} InterpretConcat(cur: Source, a: seq<Token>, b: seq<Token>)
    ensures Interpret(cur, a + b) == Interpret(cur, a) + Interpret(After(cur, a), b)
    decreases |a|
  {
    if a == [] {
      assert a + b == b;
    } else {
      assert (a + b)[0] == a[0];
      assert (a + b)[1..] == a[1..] + b;
      match a[0]
      case Data(_) => InterpretConcat(cur, a[1..], b);
      case Switch(s) => InterpretConcat(s, a[1..], b);
    }
  }

  /** The whole reader: decode the merged buffer into tagged data bytes,
      starting with stdout active. */
  function Decode(s: seq<byte>): Result<seq<Tagged>, DecodeError>
  {
    match Tokenize(s)
    case Ok(ts) => Ok(Interpret(Stdout, ts))
    case Err(e) => Err(e)
  }

  /** The bytes of one source, in order. */
  function StreamOf(tb: seq<Tagged>, src: Source): seq<byte>
    decreases |tb|
  {
    if tb == [] then []
    else (if tb[0].src == src then [tb[0].b] else []) + StreamOf(tb[1..], src)
  }

  lemma {:induction false} StreamOfConcat(a: seq<Tagged>, b: seq<Tagged>, src: Source)
    ensures StreamOf(a + b, src) == StreamOf(a, src) + StreamOf(b, src)
    decreases |a|
  {
    if a == [] {
      assert a + b == b;
    } else {
      var head := if a[0].src == src then [a[0].b] else [];
      assert (a + b)[0] == a[0];
      assert (a + b)[1..] == a[1..] + b;
      assert StreamOf(a + b, src) == head + StreamOf(a[1..] + b, src);
      StreamOfConcat(a[1..], b, src);
      assert head + (StreamOf(a[1..], src) + StreamOf(b, src))
        == (head + StreamOf(a[1..], src)) + StreamOf(b, src);
    }
  }

  /** Number of switch markers in a token sequence. */
  function MarkerCount(ts: seq<Token>): nat
    decreases |ts|
  {
    if ts == [] then 0 else (if ts[0].Switch? then 1 else 0) + MarkerCount(ts[1..])
  }

  lemma {:induction false} MarkerCountConcat(a: seq<Token>, b: seq<Token>)
    ensures MarkerCount(a + b) == MarkerCount(a) + MarkerCount(b)
    decreases |a|
  {
    if a == [] {
      assert a + b == b;
    } else {
      assert (a + b)[1..] == a[1..] + b;
      MarkerCountConcat(a[1..], b);
    }
  }

  /** Number of places in `tb` where the source differs from the one before
      it (the one before the first byte being `cur`): the source changes a
      reader of the merged buffer has to be told about. */
  function Changes(cur: Source, tb: seq<Tagged>): nat
    decreases |tb|
  {
    if tb == [] then 0
    else (if tb[0].src != cur then 1 else 0) + Changes(tb[0].src, tb[1..])
  }

  /** The source of the last byte of `tb`, or `cur` if there is none. */
  function LastSource(cur: Source, tb: seq<Tagged>): Source
  {
    if tb == [] then cur else tb[|tb| - 1].src
  }

  lemma {:induction false} ChangesConcat(cur: Source, a: seq<Tagged>, b: seq<Tagged>)
    ensures Changes(cur, a + b) == Changes(cur, a) + Changes(LastSource(cur, a), b)
    decreases |a|
  {
    if a == [] {
      assert a + b == b;
    } else {
      assert (a + b)[1..] == a[1..] + b;
      ChangesConcat(a[0].src, a[1..], b);
    }
  }
}
